=== FILE: README.md ===
# BackupBot site behaviour: counters, stats, FAQ and theme

A Dafny model of the decision logic in the marketing page's `script.js`:

- the **counter animation** (`animateCounter` / `updateCounter`): a tick function from the clock reading to what the
  element's text shows and whether another animation frame is requested, with the 500 ms start delay and 2000 ms
  duration, and runs of ticks at non-decreasing clock readings;
- the **per-counter lifecycle** of `initAnimatedCounters`: discovery (text taken as target and reset to 0 only when
  `data-count` is absent), one-shot intersection observation, animation frames, and completion;
- the **stats merge** of `fetchStatsAndInitCounters`: a field-wise optional overwrite of the three `data-count`
  targets, nothing written on a non-ok response or a thrown error, and counter initialisation whenever the fetch settles;
- the **FAQ accordion** click handler and its Enter/Space keyboard shortcut;
- the **dark-mode decision** of `initDarkMode` (start-up mode, toggle, OS preference changes) together with the
  storage effects of the cookie-consent buttons, since declining forgets the stored theme.

Modules: `Wrappers` (Option), `CounterAnimation`, `CounterLifecycle`, `StatsMerge`, `FaqAccordion`, `Preferences`.
Clock readings, intersection entries, animation frames, the fetch outcome, the OS colour-scheme preference and
both browser stores are inputs of the pure functions, not effects.

Behaviour of the code worth knowing:

- A counter whose `data-count` is already set is not reset to 0 at discovery; its embedded text stays until the
  first changed value is written, so its display can drop (`CounterLifecycle.KeptTextCanDrop`).
- `fetchStatsAndInitCounters` reads `data_saved_bytes`, while `.github/scripts/update-stats.js:9` writes the
  static page from `data_saved_gb`; a payload carrying only the latter changes nothing (`StatsMerge.GbFieldIgnored`).
- Declining cookies writes the refusal to `sessionStorage`, but `checkForLocalStorageConsent` (script.js:400) reads
  only `localStorage`, so the banner comes back on the next load (`Preferences.DeclineDoesNotPersist`).

## Model

| member | source | states |
|---|---|---|
| CounterAnimation.Begin | script.js:197-200 | counting towards the target starts 500 ms after the animation is set up and lasts 2000 ms |
| CounterAnimation.Interpolate | script.js:217-218 | the interpolated value is the floor of elapsed/duration times target (v*d <= e*T < (v+1)*d), never above the target, 0 at the start and the target at the end |
| CounterAnimation.InterpolateMonotone | script.js:217-218 | the interpolated value is non-decreasing in the elapsed time |
| CounterAnimation.ValueAtBounded | script.js:210-218 | the value an animation stands for never exceeds the target and equals it once counting is over |
| CounterAnimation.ValueAtMonotone | script.js:205-218 | the value an animation stands for is non-decreasing in the clock, across the delay, counting and finished phases |
| CounterAnimation.Step | script.js:202-226 | a tick before the delayed start writes nothing and asks for another frame; frames are requested exactly while elapsed <= duration; the final tick writes the exact target; every write is the current value; a counting tick writes only a changed value and remembers it as `start` |
| CounterAnimation.FirstTickIsSilent | script.js:200-228 | the synchronous first `updateCounter()` call falls before the delayed start and writes nothing |
| CounterAnimation.Play | script.js:206-225 | a chain of frames writes at most once per tick, a stopped run ends on a write of the exact target, and `start` changes only by a write |
| CounterAnimation.PlayConverges | script.js:212-215 | if any tick falls after the counting period the run stops and its last write is exactly the target, whatever the tick spacing |
| CounterAnimation.PlayStopsOnlyLate | script.js:212-225 | a run whose ticks all fall within the counting period never stops |
| CounterAnimation.PlayBeforeStartWritesNothing | script.js:205-208 | ticks before the delayed start write nothing and leave `start` unchanged |
| CounterAnimation.PlayBounded | script.js:210-223 | over ticks at non-decreasing times every write lies between the initial `start` and the target, and a running animation's `start` is its latest write |
| CounterAnimation.PlaySorted | script.js:210-223 | over ticks at non-decreasing times the written values never decrease |
| CounterAnimation.PlayStrict | script.js:220-223 | while counting, a value is written only when it differs from the previous one, so those writes strictly increase |
| CounterAnimation.HalfwayExample | script.js:210-218 | a 1500 target shows 750 halfway through counting and exactly 1500 after it |
| CounterLifecycle.DiscoverOne | script.js:249-256 | discovery keeps each counter's target, stores it as `data-count`, resets the text to 0 exactly when `data-count` was absent, and observes the counter |
| CounterLifecycle.Discover | script.js:249-257 | the discovery loop treats every counter alike, keeping their number and order |
| CounterLifecycle.DiscoverTwice | script.js:250-254 | a second discovery changes no target and no text |
| CounterLifecycle.TargetOf | script.js:241 | the animation target is `data-count` when present, the text otherwise |
| CounterLifecycle.Intersect | script.js:237-245 | an intersecting entry for an observed counter starts its animation towards its target with `start` 0 and unobserves it in the same step, leaving the text; any other entry changes nothing |
| CounterLifecycle.NoRestart | script.js:239-244 | a counter that is animating or finished starts no further animation under any events |
| CounterLifecycle.StartsAtMostOnce | script.js:237-256 | every counter starts at most one animation however many intersection entries arrive, and none unless observed |
| CounterLifecycle.DoneIsFinal | script.js:212-215 | a finished counter never changes again |
| CounterLifecycle.StepKeepsDisplay | script.js:217-223 | one event at a later clock reading never lowers the display of a counter that shows its current `start` |
| CounterLifecycle.DisplayNeverDecreases | script.js:217-223 | for a counter discovery reset to 0, the shown number never goes down over events at non-decreasing clock readings |
| CounterLifecycle.DiscoveredIsSteady | script.js:250-254 | a counter without `data-count` is ready for non-decreasing display after discovery |
| CounterLifecycle.KeptTextCanDrop | script.js:250-254 | a counter with `data-count` 42 and text 1500 keeps showing 1500, then shows 1 once counting starts |
| CounterLifecycle.Frame | script.js:202-226 | a frame touches only its own counter and none without a pending callback; after the counting period it shows exactly the target and ends the animation, before that the same animation goes on and the text is kept or shows the current value |
| StatsMerge.ElementById | script.js:169-171 | the lookup returns the first counter carrying the id, or None when no counter carries it |
| StatsMerge.FieldFor | script.js:173-183 | servers read `servers_protected`, backups `backups_created`, data saved `data_saved_bytes` |
| StatsMerge.SetCount | script.js:173-183 | one guarded `setAttribute` overwrites only the element's `data-count`, and only when the element exists and the field is present |
| StatsMerge.Merge | script.js:163-187 | on an ok response each of the three targets is overwritten iff its element exists and its field is present, everything else unchanged; a non-ok response or a thrown error changes nothing |
| StatsMerge.Load | script.js:163-190 | once the fetch settles, counters are initialised (all observed) whatever its outcome, and a failed fetch keeps every markup target |
| StatsMerge.GbFieldIgnored | script.js:181-183 | a payload carrying only `data_saved_gb` changes no target |
| StatsMerge.PartialPayloadExample | script.js:173-179 | a payload with only `servers_protected` 42 sets servers to 42 and keeps backups at 5 |
| FaqAccordion.Click | script.js:124-134 | after a click at most one item is open: none when the clicked one was open, exactly the clicked one otherwise |
| FaqAccordion.ClickTwice | script.js:125-133 | clicking the same question twice restores that item's state and closes all others |
| FaqAccordion.KeyDown | script.js:149-154 | Enter or Space on a question gives exactly the result of a click (at most that item open, length kept); other keys change nothing |
| Preferences.Init | script.js:59-67 | the start-up mode is dark iff the markup already has it, or the toggles exist and the stored theme is `"dark"` or no theme is stored and the OS prefers dark; the consent banner is shown iff no consent is stored locally (script.js:400) |
| Preferences.InitialDark | script.js:64 | a stored `"dark"` means dark, any other non-empty stored theme means light whatever the OS prefers, and with nothing stored the OS decides |
| Preferences.InitialDarkForStoredThemes | script.js:64 | for stored values absent, `"dark"` and `"light"`, dark iff `"dark"` is stored or nothing is stored and the OS prefers dark |
| Preferences.Toggle | script.js:69-73 | a toggle flips the mode and stores `"dark"` or `"light"` to match, touching no other key |
| Preferences.ToggleSurvivesReload | script.js:62-71 | after a toggle the next load of the same page starts in the toggled mode whatever the OS prefers; if the markup body already has `dark-mode`, which start-up never removes (script.js:64-65), it starts dark |
| Preferences.ToggleTwice | script.js:69-71 | two toggles give back the mode, now stored |
| Preferences.OsChange | script.js:103-113 | an OS colour-scheme change sets the mode only when no theme is stored |
| Preferences.ToggleDetachesFromOs | script.js:69-113 | after a toggle, OS colour-scheme changes no longer affect the mode |
| Preferences.Accept | script.js:424-427 | accepting stores consent locally and removes the banner, leaving the mode and other keys alone |
| Preferences.Decline | script.js:429-434 | declining records the refusal in session storage, removes the banner and forgets the stored theme, keeping the current mode |
| Preferences.AcceptSuppressesBanner | script.js:400-427 | after accepting, the next page load shows no banner |
| Preferences.DeclineDoesNotPersist | script.js:400-434 | after declining, the next load of the same page shows the banner again and the mode is dark iff the OS prefers dark or the markup body already has `dark-mode` |

## Left out

- StatsMerge.Load: discovery waits for `fetch` and `response.json()` to settle (script.js:165-189); a fetch that never settles, which leaves every counter undiscovered and showing its markup text, is not modelled. The fetch itself only starts if `initNavigation`, `initDarkMode` and `initFAQAccordion`, called before it by the `DOMContentLoaded` listener (script.js:1-13), return normally; an exception in one of them (a `.faq-item` without `.faq-question` or `.faq-answer`, script.js:124 and 146, or blocked storage, script.js:62) leaves every counter undiscovered, and that is not modelled.
- Preferences: reads and writes of `localStorage` and `sessionStorage` always succeed in the model; a browser that blocks storage makes `getItem` throw (script.js:62), which is not modelled.
- `fetch` and `response.json()`: the outcome is an input (ok payload of optional fields, non-ok response, thrown error); `console.warn` has no modelled effect.
- `Date.now`, `requestAnimationFrame` and `IntersectionObserver`: clock readings, frames and intersection entries are events with their times passed in.
- Observer batches: entries reach the callback one at a time and only for observed elements; a single batch holding two intersecting entries for one element would start two animations in the source, which the model cannot express.
- `toLocaleString`: the display is the number itself, without locale grouping.
- Float arithmetic: `Math.floor(elapsed / duration * target)` is modelled by the exact integer floor, which can differ from the float result by rounding.
- Non-numeric counter text and payload values (`Number()` giving `NaN`, a `null` field): targets are natural numbers; an empty `data-count` counts as absent.
- `animateCounter`'s `duration` and `startDelay` parameters: the only call site uses the defaults, which are constants here (a duration of 0 never occurs).
- Stat ids on elements without the `stat-counter` class: the merge only looks among counters.
- `updateDarkModeIcons`, the nav scroll class and section highlighting, back-to-top, smooth scroll, mobile menu, lazy loading, tooltips, skip link and search removal: DOM plumbing with no decision logic.
- The banner markup, the random FAQ answer ids and the FAQ `toggle`/`aria-expanded` listener: markup and accessibility attributes only.

=== FILE: counter_animation.dfy ===
/** The time-based counter animation of `animateCounter` in script.js.

    Each call of `updateCounter` is one tick: the caller supplies the clock
    reading `now` (milliseconds) that `Date.now()` would return, and the tick
    says what it writes to the element's text and whether it asks for another
    animation frame. The float expression `Math.floor(elapsed / duration *
    target)` is modelled by the exact integer floor `elapsed * target /
    duration`. */
module CounterAnimation {
  import opened Wrappers

  /** Default total duration and start delay of `animateCounter`, in ms. */
  const DefaultDuration: nat := 2000
  const DefaultStartDelay: nat := 500

  type Positive = n: nat | 0 < n witness 1

  /** One running animation: the number it counts to, the clock reading at
      which counting starts, and how long counting lasts. */
  datatype Animation = Animation(target: nat, startTime: nat, duration: Positive)

  /** What one tick does: the value written to the text (if any), the new value
      of the closure variable `start` (the last value written by an
      interpolating tick), and whether another frame is requested. */
  datatype Tick = Tick(write: Option<nat>, last: nat, again: bool)

  /** The animation `animateCounter(element, target)` sets up at clock `now`. */
  function Begin(target: nat, now: nat): (a: Animation)
    ensures a.target == target && a.duration == DefaultDuration
    ensures a.startTime == now + DefaultStartDelay
  {
    Animation(target, now + DefaultStartDelay, DefaultDuration)
  }

  /** The interpolated value after `elapsed` ms of a `duration`-ms animation
      towards `target`: the floor of elapsed/duration * target. */
  function Interpolate(elapsed: nat, duration: Positive, target: nat): (v: nat)
    requires elapsed <= duration
    ensures v * duration <= elapsed * target < (v + 1) * duration
    ensures v <= target
    ensures elapsed == 0 ==> v == 0
    ensures elapsed == duration ==> v == target
  {
    var v := elapsed * target / duration;
    DivBounds(elapsed * target, duration);
    MulLeftMonotone(elapsed, duration, target);
    FloorAtMost(elapsed * target, duration, target);
    DivCancel(target, duration);
    v
  }

  /** A quotient by `d` of a number at most `t * d` is at most `t`. */
  lemma FloorAtMost(n: nat, d: Positive, t: nat)
    requires n <= t * d
    ensures n / d <= t
  {
    var q := n / d;
    DivBounds(n, d);
    assert q * d <= n;
    assert (t + 1) * d == t * d + d;
    assert q * d < (t + 1) * d;
    MulStrict(q, t + 1, d);
  }

  /** Multiplying by `d` and then dividing by it gives back the number. */
  lemma DivCancel(t: nat, d: Positive)
    ensures (t * d) / d == t
  {
    var q := (t * d) / d;
    DivBounds(t * d, d);
    assert (t + 1) * d == t * d + d;
    MulStrict(t, q + 1, d);
    MulStrict(q, t + 1, d);
  }

  lemma DivBounds(n: nat, d: Positive)
    ensures (n / d) * d <= n < (n / d + 1) * d
  {
  }

  lemma MulLeftMonotone(a: nat, b: nat, c: nat)
    requires a <= b
    ensures a * c <= b * c
  {
  }

  /** If a*c < b*c with c positive then a < b. */
  lemma MulStrict(a: nat, b: nat, c: Positive)
    requires a * c < b * c
    ensures a < b
  {
    if a >= b {
      MulLeftMonotone(b, a, c);
    }
  }

  /** The interpolation never goes backwards as time advances. */
  lemma InterpolateMonotone(e1: nat, e2: nat, duration: Positive, target: nat)
    requires e1 <= e2 <= duration
    ensures Interpolate(e1, duration, target) <= Interpolate(e2, duration, target)
  {
    var v1 := Interpolate(e1, duration, target);
    var v2 := Interpolate(e2, duration, target);
    MulLeftMonotone(e1, e2, target);
    MulStrict(v1, v2 + 1, duration);
  }

  /** The value the animation stands for at clock `now`: 0 before the start,
      the interpolation while counting, the target once counting is over. */
  function ValueAt(a: Animation, now: nat): nat {
    if now < a.startTime then 0
    else if now - a.startTime > a.duration then a.target
    else Interpolate(now - a.startTime, a.duration, a.target)
  }

  lemma ValueAtBounded(a: Animation, now: nat)
    ensures ValueAt(a, now) <= a.target
    ensures now >= a.startTime + a.duration ==> ValueAt(a, now) == a.target
  {
  }

  /** `ValueAt` is non-decreasing in the clock. */
  lemma ValueAtMonotone(a: Animation, t1: nat, t2: nat)
    requires t1 <= t2
    ensures ValueAt(a, t1) <= ValueAt(a, t2)
  {
    if t1 >= a.startTime && t2 - a.startTime <= a.duration {
      InterpolateMonotone(t1 - a.startTime, t2 - a.startTime, a.duration, a.target);
    }
  }

  /** One run of `updateCounter` at clock `now`, with `last` the current value
      of the closure variable `start`. */
  function Step(a: Animation, last: nat, now: nat): (t: Tick)
    // before the delayed start: no write, another frame requested
    ensures now < a.startTime ==> t == Tick(None, last, true)
    // frames are requested exactly until elapsed exceeds duration
    ensures t.again <==> now <= a.startTime + a.duration
    // the final tick writes the exact target
    ensures !t.again ==> t.write == Some(a.target)
    // every write shows the value the animation stands for at that moment
    ensures t.write.Some? ==> t.write.value == ValueAt(a, now)
    // an interpolating tick writes only a changed value, and remembers it
    ensures t.again && t.write.Some? ==> t.write.value != last && t.last == t.write.value
    ensures t.again && now >= a.startTime ==> t.last == ValueAt(a, now)
    ensures t.write.None? ==> t.last == last
  {
    if now < a.startTime then Tick(None, last, true)
    else
      var elapsed := now - a.startTime;
      if elapsed > a.duration then Tick(Some(a.target), last, false)
      else
        var v := Interpolate(elapsed, a.duration, a.target);
        if v != last then Tick(Some(v), v, true) else Tick(None, last, true)
  }

  /** The synchronous first call `updateCounter()` made by `animateCounter`
      itself falls before the delayed start, so it writes nothing. */
  lemma FirstTickIsSilent(target: nat, now: nat)
    ensures Step(Begin(target, now), 0, now) == Tick(None, 0, true)
  {
  }

  /** The outcome of a sequence of ticks: the values written, in order, the
      final value of `start`, and whether the animation stopped. */
  datatype Run = Run(writes: seq<nat>, last: nat, stopped: bool)

  /** Runs ticks at the clock readings `times` until one of them stops the
      animation; later readings get no tick, since no frame was requested. */
  function Play(a: Animation, last: nat, times: seq<nat>): (r: Run)
    // at most one write per tick
    ensures |r.writes| <= |times|
    // a run that stopped ended on a write of the exact target
    ensures r.stopped ==> |r.writes| > 0 && r.writes[|r.writes| - 1] == a.target
    // `start` only changes by a write
    ensures |r.writes| == 0 ==> r.last == last
    decreases |times|
  {
    if |times| == 0 then Run([], last, false)
    else
      var t := Step(a, last, times[0]);
      var prefix := if t.write.Some? then [t.write.value] else [];
      if !t.again then Run(prefix, t.last, true)
      else
        var rest := Play(a, t.last, times[1..]);
        Run(prefix + rest.writes, rest.last, rest.stopped)
  }

  ghost predicate Sorted(s: seq<nat>) {
    forall i, j :: 0 <= i < j < |s| ==> s[i] <= s[j]
  }

  ghost predicate StrictlyIncreasing(s: seq<nat>) {
    forall i, j :: 0 <= i < j < |s| ==> s[i] < s[j]
  }

  /** Convergence: if any tick falls after the counting period, the run stops
      and its last write is exactly the target, whatever the tick spacing. */
  lemma {:induction false} PlayConverges(a: Animation, last: nat, times: seq<nat>, k: nat)
    requires k < |times| && times[k] > a.startTime + a.duration
    ensures Play(a, last, times).stopped
    ensures |Play(a, last, times).writes| > 0
    ensures Play(a, last, times).writes[|Play(a, last, times).writes| - 1] == a.target
    decreases k
  {
    var t := Step(a, last, times[0]);
    if t.again {
      assert k > 0;
      PlayConverges(a, t.last, times[1..], k - 1);
    }
  }

  /** A run only stops at a tick after the counting period. */
  lemma {:induction false} PlayStopsOnlyLate(a: Animation, last: nat, times: seq<nat>)
    requires forall i :: 0 <= i < |times| ==> times[i] <= a.startTime + a.duration
    ensures !Play(a, last, times).stopped
    decreases |times|
  {
    if |times| > 0 {
      PlayStopsOnlyLate(a, Step(a, last, times[0]).last, times[1..]);
    }
  }

  /** Ticks that all fall before the delayed start write nothing. */
  lemma {:induction false} PlayBeforeStartWritesNothing(a: Animation, last: nat, times: seq<nat>)
    requires forall i :: 0 <= i < |times| ==> times[i] < a.startTime
    ensures Play(a, last, times) == Run([], last, false)
    decreases |times|
  {
    if |times| > 0 {
      PlayBeforeStartWritesNothing(a, last, times[1..]);
    }
  }

  /** The writes of a run made while counting, that is all of them but the
      final exact-target write of a stopped run. */
  function Interpolated(r: Run): seq<nat> {
    if r.stopped && |r.writes| > 0 then r.writes[..|r.writes| - 1] else r.writes
  }

  /** The clock readings a run is given never go backwards, and the current
      `start` does not exceed what the animation stands for at the first one. */
  ghost predicate Ordered(a: Animation, last: nat, times: seq<nat>) {
    && (forall i, j :: 0 <= i < j < |times| ==> times[i] <= times[j])
    && last <= a.target
    && (|times| > 0 ==> last <= ValueAt(a, times[0]))
  }

  lemma OrderedTail(a: Animation, last: nat, times: seq<nat>)
    requires |times| > 0 && Ordered(a, last, times)
    ensures Ordered(a, Step(a, last, times[0]).last, times[1..])
  {
    ValueAtBounded(a, times[0]);
    if |times| > 1 {
      ValueAtMonotone(a, times[0], times[1]);
    }
  }

  /** Boundedness: over ticks at non-decreasing clock readings, every value
      written lies between the starting `start` and the target, `start` itself
      stays in that range, and a run that is still going has `start` equal to
      its latest write. */
  lemma {:induction false} PlayBounded(a: Animation, last: nat, times: seq<nat>)
    requires Ordered(a, last, times)
    ensures var r := Play(a, last, times);
      && (forall i :: 0 <= i < |r.writes| ==> last <= r.writes[i] <= a.target)
      && last <= r.last <= a.target
      && (!r.stopped && |r.writes| > 0 ==> r.last == r.writes[|r.writes| - 1])
      && (|r.writes| == 0 ==> r.last == last)
    decreases |times|
  {
    if |times| > 0 {
      ValueAtBounded(a, times[0]);
      var t := Step(a, last, times[0]);
      var prefix := if t.write.Some? then [t.write.value] else [];
      assert forall i :: 0 <= i < |prefix| ==> last <= prefix[i] <= a.target;
      if t.again {
        OrderedTail(a, last, times);
        var rest := Play(a, t.last, times[1..]);
        PlayBounded(a, t.last, times[1..]);
        var w := prefix + rest.writes;
        assert Play(a, last, times) == Run(w, rest.last, rest.stopped);
        forall i | 0 <= i < |w|
          ensures last <= w[i] <= a.target
        {
          if i >= |prefix| {
            assert w[i] == rest.writes[i - |prefix|];
          }
        }
      }
    }
  }

  /** Monotonicity: over ticks at non-decreasing clock readings the values
      written never decrease. */
  lemma {:induction false} PlaySorted(a: Animation, last: nat, times: seq<nat>)
    requires Ordered(a, last, times)
    ensures Sorted(Play(a, last, times).writes)
    decreases |times|
  {
    if |times| > 0 {
      var t := Step(a, last, times[0]);
      if t.again {
        OrderedTail(a, last, times);
        PlaySorted(a, t.last, times[1..]);
        PlayBounded(a, t.last, times[1..]);
      }
    }
  }

  /** No redundant writes: while counting, a value is written only when it
      differs from (so exceeds) the previous one, hence the writes made while
      counting strictly increase and all exceed the starting `start`. */
  lemma {:induction false} PlayStrict(a: Animation, last: nat, times: seq<nat>)
    requires Ordered(a, last, times)
    ensures var w := Interpolated(Play(a, last, times));
      StrictlyIncreasing(w) && forall i :: 0 <= i < |w| ==> last < w[i]
    decreases |times|
  {
    if |times| > 0 {
      var t := Step(a, last, times[0]);
      if t.again {
        OrderedTail(a, last, times);
        PlayStrict(a, t.last, times[1..]);
        var rest := Play(a, t.last, times[1..]);
        var prefix := if t.write.Some? then [t.write.value] else [];
        assert Play(a, last, times).writes == prefix + rest.writes;
        if rest.stopped && |rest.writes| > 0 {
          assert Interpolated(Play(a, last, times)) == prefix + Interpolated(rest);
        }
      }
    }
  }

  /** The concrete case of a 1500 target: halfway through counting the text
      shows 750; after the counting period it shows exactly 1500. */
  lemma HalfwayExample(now: nat)
    ensures var a := Begin(1500, now);
      && Step(a, 0, a.startTime + 1000) == Tick(Some(750), 750, true)
      && Step(a, 750, a.startTime + 2001) == Tick(Some(1500), 750, false)
  {
  }
}

=== FILE: counter_lifecycle.dfy ===
/** The per-element lifecycle of the `.stat-counter` elements in
    `initAnimatedCounters` (script.js): discovery, one-shot visibility
    observation, and the animation frames that follow.

    A page is the sequence of counter elements in document order. Each event
    of the host (an intersection entry, an animation frame) is a pure step from
    one page to the next. */
module CounterLifecycle {
  import opened Wrappers
  import opened CounterAnimation

  /** The element ids that the stats merge looks up. */
  datatype ElementId = ServersCount | BackupsCount | DataSavedCount

  /** Where an element is in its lifecycle: not yet discovered, registered
      with the intersection observer, animating with one frame pending (and
      the closure's `start` value), or finished. */
  datatype Phase =
    | Undiscovered
    | Observed
    | Animating(anim: Animation, last: nat)
    | Done

  /** A counter element: its DOM id, its `data-count` attribute (None when
      absent or empty), the number its text shows, and its phase. */
  datatype Counter = Counter(id: Option<ElementId>, count: Option<nat>, text: nat, phase: Phase)

  /** The number the observer callback animates to:
      `Number(dataset.count || textContent)`. */
  function TargetOf(c: Counter): (t: nat)
    ensures c.count.Some? ==> t == c.count.value
    ensures c.count.None? ==> t == c.text
  {
    c.count.GetOr(c.text)
  }

  /** One iteration of the discovery loop: a counter without `data-count`
      takes its text as target and is reset to show 0; every counter is then
      observed. */
  function DiscoverOne(c: Counter): (d: Counter)
    ensures d.phase == Observed && d.id == c.id
    // the target the animation will reach is the one the element had
    ensures TargetOf(d) == TargetOf(c)
    // after discovery every counter carries its target as `data-count`
    ensures d.count == Some(TargetOf(c))
    // the text is reset exactly when `data-count` was absent
    ensures c.count.None? ==> d.text == 0
    ensures c.count.Some? ==> d.text == c.text
  {
    var c' := if c.count.None? then c.(count := Some(c.text), text := 0) else c;
    c'.(phase := Observed)
  }

  /** The discovery loop `counters.forEach(...)` over all counters. */
  function Discover(cs: seq<Counter>): (ds: seq<Counter>)
    ensures |ds| == |cs|
    ensures forall i :: 0 <= i < |cs| ==> ds[i] == DiscoverOne(cs[i])
  {
    if |cs| == 0 then [] else [DiscoverOne(cs[0])] + Discover(cs[1..])
  }

  /** Discovery is stable: running it again changes no target and no text. */
  lemma DiscoverTwice(cs: seq<Counter>)
    ensures var once := Discover(cs);
      forall i :: 0 <= i < |cs| ==> Discover(once)[i] == once[i]
  {
  }

  /** The observer callback for one entry of counter `i` at clock `now`. The
      observer only reports elements still registered with it: an entry for
      an element not in phase Observed never reaches the callback. On an
      intersecting entry the animation starts (with its synchronous first
      tick) and the element is unobserved in the same step. */
  function Intersect(cs: seq<Counter>, i: nat, intersecting: bool, now: nat): (next: seq<Counter>)
    ensures |next| == |cs|
    // an intersecting entry for an observed counter starts its animation
    // towards its target with `start` 0, out of the observer, text untouched
    ensures i < |cs| && cs[i].phase == Observed && intersecting ==>
      next == cs[i := cs[i].(phase := Animating(Begin(TargetOf(cs[i]), now), 0))]
    // any other entry changes nothing
    ensures !(i < |cs| && cs[i].phase == Observed && intersecting) ==> next == cs
  {
    if i < |cs| && cs[i].phase == Observed && intersecting then
      var a := Begin(TargetOf(cs[i]), now);
      FirstTickIsSilent(TargetOf(cs[i]), now);
      cs[i := Perform(cs[i], a, Step(a, 0, now))]
    else cs
  }

  /** An animation frame delivered to counter `i`'s pending `updateCounter`
      callback at clock `now`. A counter with no pending callback gets none. */
  function Frame(cs: seq<Counter>, i: nat, now: nat): (next: seq<Counter>)
    ensures |next| == |cs|
    ensures forall j :: 0 <= j < |cs| && j != i ==> next[j] == cs[j]
    ensures !(i < |cs| && cs[i].phase.Animating?) ==> next == cs
    // after the counting period: the exact target is shown and the animation ends
    ensures i < |cs| && cs[i].phase.Animating? && now > cs[i].phase.anim.startTime + cs[i].phase.anim.duration ==>
      next[i].phase == Done && next[i].text == cs[i].phase.anim.target
    // until then: the same animation goes on, and the text is either kept or
    // shows the value the animation stands for at `now`
    ensures i < |cs| && cs[i].phase.Animating? && now <= cs[i].phase.anim.startTime + cs[i].phase.anim.duration ==>
      && next[i].phase.Animating? && next[i].phase.anim == cs[i].phase.anim
      && (next[i].text == cs[i].text || next[i].text == ValueAt(cs[i].phase.anim, now))
  {
    if i < |cs| && cs[i].phase.Animating? then
      var a := cs[i].phase.anim;
      cs[i := Perform(cs[i], a, Step(a, cs[i].phase.last, now))]
    else cs
  }

  /** The effect of one tick of animation `a` on its element: the write, if
      any, becomes the text; the animation goes on only if a frame was
      requested. */
  function Perform(c: Counter, a: Animation, t: Tick): Counter {
    c.(text := t.write.GetOr(c.text), phase := if t.again then Animating(a, t.last) else Done)
  }

  datatype Event =
    | Entry(i: nat, intersecting: bool, now: nat)
    | AnimationFrame(i: nat, now: nat)

  function Time(e: Event): nat {
    match e
    case Entry(_, _, now) => now
    case AnimationFrame(_, now) => now
  }

  function Apply(cs: seq<Counter>, e: Event): seq<Counter> {
    match e
    case Entry(i, intersecting, now) => Intersect(cs, i, intersecting, now)
    case AnimationFrame(i, now) => Frame(cs, i, now)
  }

  /** The page after a sequence of events. */
  function Replay(cs: seq<Counter>, events: seq<Event>): seq<Counter>
    decreases |events|
  {
    if |events| == 0 then cs else Replay(Apply(cs, events[0]), events[1..])
  }

  /** An intersection entry starts an animation for counter `i`. */
  predicate Starts(cs: seq<Counter>, e: Event, i: nat) {
    e.Entry? && e.i == i && e.intersecting && i < |cs| && cs[i].phase == Observed
  }

  /** The number of animations counter `i` starts over a sequence of events. */
  function StartCount(cs: seq<Counter>, events: seq<Event>, i: nat): nat
    decreases |events|
  {
    if |events| == 0 then 0
    else (if Starts(cs, events[0], i) then 1 else 0) + StartCount(Apply(cs, events[0]), events[1..], i)
  }

  /** One event changes only the counter it is addressed to, and keeps the
      number of counters, their ids and their targets. */
  lemma ApplyLocal(cs: seq<Counter>, e: Event)
    ensures |Apply(cs, e)| == |cs|
    ensures forall j :: 0 <= j < |cs| && j != e.i ==> Apply(cs, e)[j] == cs[j]
    ensures forall j :: 0 <= j < |cs| ==> Apply(cs, e)[j].id == cs[j].id && Apply(cs, e)[j].count == cs[j].count
  {
  }

  /** A counter that is animating or finished stays so under every event. */
  lemma StaysStarted(cs: seq<Counter>, e: Event, i: nat)
    requires i < |cs| && (cs[i].phase.Animating? || cs[i].phase == Done)
    ensures |Apply(cs, e)| == |cs|
    ensures Apply(cs, e)[i].phase.Animating? || Apply(cs, e)[i].phase == Done
  {
  }

  /** Once animating or finished, a counter starts no further animation,
      however many intersection entries arrive. */
  lemma {:induction false} NoRestart(cs: seq<Counter>, events: seq<Event>, i: nat)
    requires i < |cs| && (cs[i].phase.Animating? || cs[i].phase == Done)
    ensures StartCount(cs, events, i) == 0
    decreases |events|
  {
    if |events| > 0 {
      StaysStarted(cs, events[0], i);
      NoRestart(Apply(cs, events[0]), events[1..], i);
    }
  }

  /** Trigger-once: every counter starts at most one animation over any
      sequence of events, and none unless it is being observed. */
  lemma {:induction false} StartsAtMostOnce(cs: seq<Counter>, events: seq<Event>, i: nat)
    requires i < |cs|
    ensures StartCount(cs, events, i) <= 1
    ensures cs[i].phase != Observed ==> StartCount(cs, events, i) == 0
    decreases |events|
  {
    if |events| > 0 {
      var next := Apply(cs, events[0]);
      ApplyLocal(cs, events[0]);
      if Starts(cs, events[0], i) {
        NoRestart(next, events[1..], i);
      } else {
        if cs[i].phase != Observed {
          assert next[i].phase != Observed;
        }
        StartsAtMostOnce(next, events[1..], i);
      }
    }
  }

  /** A finished counter never changes again. */
  lemma {:induction false} DoneIsFinal(cs: seq<Counter>, events: seq<Event>, i: nat)
    requires i < |cs| && cs[i].phase == Done
    ensures |Replay(cs, events)| == |cs| && Replay(cs, events)[i] == cs[i]
    decreases |events|
  {
    if |events| > 0 {
      ApplyLocal(cs, events[0]);
      DoneIsFinal(Apply(cs, events[0]), events[1..], i);
    }
  }

  /** What the display of counter `i` must satisfy at clock `t` for it never
      to decrease from then on: a discovered counter still shows 0, an
      animating one shows its `start`, which does not exceed the value the
      animation stands for at `t`. */
  ghost predicate Steady(c: Counter, t: nat) {
    match c.phase
    case Undiscovered => true
    case Observed => c.text == 0
    case Animating(a, last) => c.text == last && last <= ValueAt(a, t)
    case Done => true
  }

  lemma SteadyLater(c: Counter, t: nat, t': nat)
    requires Steady(c, t) && t <= t'
    ensures Steady(c, t')
  {
    if c.phase.Animating? {
      ValueAtMonotone(c.phase.anim, t, t');
    }
  }

  /** One event at clock `now` never lowers the display of a steady counter,
      and leaves it steady. */
  lemma StepKeepsDisplay(cs: seq<Counter>, e: Event, i: nat, t: nat)
    requires i < |cs| && Steady(cs[i], t) && t <= Time(e)
    ensures |Apply(cs, e)| == |cs|
    ensures cs[i].text <= Apply(cs, e)[i].text
    ensures Steady(Apply(cs, e)[i], Time(e))
  {
    SteadyLater(cs[i], t, Time(e));
    if cs[i].phase.Animating? {
      ValueAtBounded(cs[i].phase.anim, Time(e));
    }
  }

  /** The texts counter `i` shows after each event of a sequence. */
  function Texts(cs: seq<Counter>, events: seq<Event>, i: nat): seq<nat>
    requires i < |cs|
    decreases |events|
  {
    if |events| == 0 then []
    else
      ApplyLocal(cs, events[0]);
      var next := Apply(cs, events[0]);
      [next[i].text] + Texts(next, events[1..], i)
  }

  /** Non-decreasing display: for a counter whose text discovery reset to 0,
      over events at non-decreasing clock readings the shown number never
      goes down. */
  lemma {:induction false} DisplayNeverDecreases(cs: seq<Counter>, events: seq<Event>, i: nat, t: nat)
    requires i < |cs| && Steady(cs[i], t)
    requires forall k :: 0 <= k < |events| ==> t <= Time(events[k])
    requires forall k, l :: 0 <= k < l < |events| ==> Time(events[k]) <= Time(events[l])
    ensures var s := Texts(cs, events, i);
      && (forall k :: 0 <= k < |s| ==> cs[i].text <= s[k])
      && Sorted(s)
    decreases |events|
  {
    if |events| > 0 {
      var next := Apply(cs, events[0]);
      StepKeepsDisplay(cs, events[0], i, t);
      DisplayNeverDecreases(next, events[1..], i, Time(events[0]));
      var s := Texts(cs, events, i);
      assert s == [next[i].text] + Texts(next, events[1..], i);
    }
  }

  /** Discovery makes every reset counter steady. */
  lemma DiscoveredIsSteady(c: Counter, t: nat)
    requires c.count.None?
    ensures Steady(DiscoverOne(c), t)
  {
  }

  /** A counter whose `data-count` was already set keeps its embedded text,
      so its display can drop: text 1500 with `data-count` 42 shows 1 once
      counting begins. */
  lemma KeptTextCanDrop()
    ensures var c := DiscoverOne(Counter(Some(ServersCount), Some(42), 1500, Undiscovered));
      var started := Intersect([c], 0, true, 0);
      && started[0].text == 1500
      && Frame(started, 0, DefaultStartDelay + 48)[0].text == 1
  {
  }
}

=== FILE: faq_accordion.dfy ===
/** The FAQ accordion of `initFAQAccordion` (script.js): the click handler on
    each question and the keyboard shortcut that clicks it. The page's FAQ
    items are modelled by their `active` class flags in document order. */
module FaqAccordion {

  /** The indices of the open items. */
  function Active(items: seq<bool>): set<nat> {
    set j: nat | j < |items| && items[j]
  }

  /** A click on the question of item `k`: close every item, then open item
      `k` if it was closed. Afterwards at most one item is open: none when `k`
      was the open one, exactly `k` otherwise. */
  function Click(items: seq<bool>, k: nat): (r: seq<bool>)
    requires k < |items|
    ensures |r| == |items|
    ensures Active(r) == if items[k] then {} else {k}
    ensures |Active(r)| <= 1
  {
    var r := seq(|items|, j requires 0 <= j < |items| => j == k && !items[k]);
    assert Active(r) == if items[k] then {} else {k} by {
      forall j: nat | j in Active(r) ensures j == k && !items[k] {
        assert r[j];
      }
      if !items[k] {
        assert r[k];
      }
    }
    r
  }

  /** Clicking the same question twice closes everything when it was closed
      and opens it again when it was open. */
  lemma ClickTwice(items: seq<bool>, k: nat)
    requires k < |items|
    ensures Active(Click(Click(items, k), k)) == if items[k] then {k} else {}
  {
    var once := Click(items, k);
    assert once[k] == !items[k];
  }

  /** A key pressed on the question of item `k`: Enter or Space click it,
      every other key does nothing. */
  function KeyDown(items: seq<bool>, k: nat, key: string): (r: seq<bool>)
    requires k < |items|
    ensures |r| == |items|
    // Enter or Space run the click handler itself
    ensures key == "Enter" || key == " " ==> r == Click(items, k)
    ensures key == "Enter" || key == " " ==> Active(r) == if items[k] then {} else {k}
    ensures key != "Enter" && key != " " ==> r == items
  {
    if key == "Enter" || key == " " then Click(items, k) else items
  }
}

=== FILE: preferences.dfy ===
/** The dark-mode decision of `initDarkMode` and the storage effects of the
    cookie-consent banner of `checkForLocalStorageConsent` (script.js). The
    browser's `localStorage` and `sessionStorage` are explicit string maps;
    the OS colour-scheme preference is an input. */
module Preferences {
  import opened Wrappers

  type Store = map<string, string>

  const ThemeKey: string := "theme"
  const ConsentKey: string := "cookie-consent"

  /** `storage.getItem(key)`: the stored string, or None (`null`). */
  function GetItem(s: Store, key: string): Option<string> {
    if key in s then Some(s[key]) else None
  }

  /** JavaScript truthiness of a `getItem` result: `null` and `""` are false. */
  predicate Truthy(v: Option<string>) {
    v.Some? && v.value != ""
  }

  /** The page state the theme and consent handlers see: whether the body has
      the `dark-mode` class, whether the toggle handlers were installed (both
      toggle buttons exist), whether the consent banner is on the page, and
      both stores. */
  datatype Prefs = Prefs(dark: bool, wired: bool, banner: bool, local: Store, session: Store)

  /** The start-up decision: dark when the stored theme is `"dark"`, or when
      no theme is stored and the OS prefers dark. */
  function InitialDark(stored: Option<string>, osDark: bool): (dark: bool)
    // a stored `"dark"` wins over the OS
    ensures stored == Some("dark") ==> dark
    // any other stored theme (such as `"light"`) means light whatever the OS prefers
    ensures Truthy(stored) && stored != Some("dark") ==> !dark
    // with nothing (or `""`) stored the OS decides
    ensures !Truthy(stored) ==> (dark <==> osDark)
  {
    stored == Some("dark") || (!Truthy(stored) && osDark)
  }

  /** Page start-up: `initDarkMode` (which returns early when a toggle
      button is missing, leaving the body class as the markup has it) and
      `checkForLocalStorageConsent` (which shows the banner unless consent is
      stored locally). */
  function Init(local: Store, session: Store, osDark: bool, togglesPresent: bool, bodyDark: bool): (p: Prefs)
    ensures p.local == local && p.session == session && p.wired == togglesPresent
    ensures p.dark <==> (bodyDark || (togglesPresent &&
      (GetItem(local, ThemeKey) == Some("dark") || (!Truthy(GetItem(local, ThemeKey)) && osDark))))
    ensures p.banner <==> !Truthy(GetItem(local, ConsentKey))
  {
    var dark := bodyDark || (togglesPresent && InitialDark(GetItem(local, ThemeKey), osDark));
    Prefs(dark, togglesPresent, !Truthy(GetItem(local, ConsentKey)), local, session)
  }

  /** For the values the page itself ever stores, the start-up decision is:
      dark iff `"dark"` is stored, or nothing is stored and the OS prefers
      dark. */
  lemma InitialDarkForStoredThemes(stored: Option<string>, osDark: bool)
    requires stored in {None, Some("dark"), Some("light")}
    ensures InitialDark(stored, osDark) <==> stored == Some("dark") || (stored == None && osDark)
  {
  }

  /** A click on either toggle button: flip the mode and store it. */
  function Toggle(p: Prefs): (q: Prefs)
    ensures !p.wired ==> q == p
    ensures p.wired ==> q.dark == !p.dark
    ensures p.wired ==> GetItem(q.local, ThemeKey) == Some(if q.dark then "dark" else "light")
    ensures forall k :: k != ThemeKey ==> GetItem(q.local, k) == GetItem(p.local, k)
    ensures q.wired == p.wired && q.banner == p.banner && q.session == p.session
  {
    if !p.wired then p
    else
      var dark := !p.dark;
      p.(dark := dark, local := p.local[ThemeKey := if dark then "dark" else "light"])
  }

  /** After a toggle, reloading the page restores the toggled mode whatever
      the OS prefers, unless the markup body already has `dark-mode`, which
      start-up never removes: then the reload is dark. */
  lemma ToggleSurvivesReload(p: Prefs, osDark: bool, bodyDark: bool)
    requires p.wired
    ensures Init(Toggle(p).local, p.session, osDark, true, bodyDark).dark == (bodyDark || Toggle(p).dark)
  {
  }

  /** Toggling twice gives back the mode, with it now stored. */
  lemma ToggleTwice(p: Prefs)
    ensures Toggle(Toggle(p)).dark == p.dark
    ensures p.wired ==> GetItem(Toggle(Toggle(p)).local, ThemeKey) == Some(if p.dark then "dark" else "light")
  {
  }

  /** A change of the OS colour-scheme preference: followed only while no
      theme is stored. */
  function OsChange(p: Prefs, matches: bool): (q: Prefs)
    ensures p.wired && !Truthy(GetItem(p.local, ThemeKey)) ==> q == p.(dark := matches)
    ensures !p.wired || Truthy(GetItem(p.local, ThemeKey)) ==> q == p
  {
    if p.wired && !Truthy(GetItem(p.local, ThemeKey)) then p.(dark := matches) else p
  }

  /** Once the user has toggled, OS changes no longer affect the mode. */
  lemma ToggleDetachesFromOs(p: Prefs, matches: bool)
    ensures OsChange(Toggle(p), matches) == Toggle(p) || !p.wired
  {
  }

  /** The Accept button: store consent locally and remove the banner. */
  function Accept(p: Prefs): (q: Prefs)
    ensures !p.banner ==> q == p
    ensures p.banner ==> !q.banner && GetItem(q.local, ConsentKey) == Some("accepted")
    ensures forall k :: k != ConsentKey ==> GetItem(q.local, k) == GetItem(p.local, k)
    ensures q.dark == p.dark
  {
    if !p.banner then p
    else p.(banner := false, local := p.local[ConsentKey := "accepted"])
  }

  /** The Decline button: record the refusal in session storage, remove the
      banner and forget the stored theme (the current mode is kept). */
  function Decline(p: Prefs): (q: Prefs)
    ensures !p.banner ==> q == p
    ensures p.banner ==> !q.banner && GetItem(q.local, ThemeKey) == None
    ensures p.banner ==> GetItem(q.session, ConsentKey) == Some("declined")
    ensures forall k :: k != ThemeKey ==> GetItem(q.local, k) == GetItem(p.local, k)
    ensures q.dark == p.dark
  {
    if !p.banner then p
    else p.(banner := false, local := p.local - {ThemeKey}, session := p.session[ConsentKey := "declined"])
  }

  /** After accepting, the next page load shows no banner. */
  lemma AcceptSuppressesBanner(p: Prefs, osDark: bool, toggles: bool, bodyDark: bool)
    requires p.banner
    ensures !Init(Accept(p).local, Accept(p).session, osDark, toggles, bodyDark).banner
  {
  }

  /** Declining is kept only in session storage, which the banner check does
      not read: the next page load shows the banner again, and with the theme
      forgotten the OS preference decides the mode once more (unless the
      markup body already has `dark-mode`, which start-up never removes). */
  lemma DeclineDoesNotPersist(local: Store, session: Store, osDark: bool, bodyDark: bool, matches: bool)
    requires !Truthy(GetItem(local, ConsentKey))
    ensures var q := Decline(Init(local, session, osDark, true, bodyDark));
      && Init(q.local, q.session, osDark, true, bodyDark).banner
      && Init(q.local, q.session, osDark, true, bodyDark).dark == (bodyDark || osDark)
      && OsChange(q, matches).dark == matches
  {
  }
}

=== FILE: stats_merge.dfy ===
/** `fetchStatsAndInitCounters` (script.js): the stats payload, when it
    arrives, overwrites the `data-count` of the three stat elements field by
    field; then, once the fetch settles, the counters are initialised whatever
    its outcome. The network fetch and JSON parsing are replaced by that
    outcome. */
module StatsMerge {
  import opened Wrappers
  import opened CounterLifecycle

  /** The fields of the stats JSON the page may receive. The producer of the
      static page writes `data_saved_gb`; this consumer reads only
      `data_saved_bytes`. */
  datatype Payload = Payload(
    serversProtected: Option<nat>,
    backupsCreated: Option<nat>,
    dataSavedBytes: Option<nat>,
    dataSavedGb: Option<nat>)

  /** How the fetch ended: a response with `ok` set and a parsed body, a
      response without `ok`, or a thrown error (network or JSON parsing). */
  datatype Response = Ok(payload: Payload) | NotOk | Failed

  /** The payload field each element id is overwritten from; the data-saved
      element reads `data_saved_bytes`, never `data_saved_gb`. */
  function FieldFor(p: Payload, id: ElementId): (f: Option<nat>)
    ensures id == ServersCount ==> f == p.serversProtected
    ensures id == BackupsCount ==> f == p.backupsCreated
    ensures id == DataSavedCount ==> f == p.dataSavedBytes
  {
    match id
    case ServersCount => p.serversProtected
    case BackupsCount => p.backupsCreated
    case DataSavedCount => p.dataSavedBytes
  }

  /** Counter `i` is the element `document.getElementById(id)` returns: the
      first one in document order carrying that id. */
  ghost predicate IsElementFor(cs: seq<Counter>, id: ElementId, i: nat) {
    && i < |cs|
    && cs[i].id == Some(id)
    && forall j :: 0 <= j < i ==> cs[j].id != Some(id)
  }

  /** `document.getElementById(id)`: the index of the first counter with that
      id, or None when the page has no such element. */
  function ElementById(cs: seq<Counter>, id: ElementId): (r: Option<nat>)
    ensures r.Some? ==> IsElementFor(cs, id, r.value)
    ensures r.None? ==> forall j :: 0 <= j < |cs| ==> cs[j].id != Some(id)
    decreases |cs|
  {
    if |cs| == 0 then None
    else if cs[0].id == Some(id) then Some(0)
    else
      match ElementById(cs[1..], id)
      case Some(k) =>
        assert cs[1..][k] == cs[k + 1];
        Some(k + 1)
      case None => None
  }

  /** `if (el && field !== undefined) el.setAttribute('data-count', field)`. */
  function SetCount(cs: seq<Counter>, id: ElementId, field: Option<nat>): (r: seq<Counter>)
    ensures |r| == |cs|
    ensures forall i :: 0 <= i < |cs| ==>
      r[i] == (if IsElementFor(cs, id, i) && field.Some? then cs[i].(count := field) else cs[i])
  {
    match ElementById(cs, id)
    case Some(k) =>
      if field.Some? then cs[k := cs[k].(count := field)] else cs
    case None => cs
  }

  /** The merge step of `fetchStatsAndInitCounters`: on an ok response each
      of the three elements gets its `data-count` overwritten exactly when it
      exists and its field is present; everything else, and everything on a
      failed fetch, is left as it was. */
  function Merge(cs: seq<Counter>, r: Response): (ms: seq<Counter>)
    ensures |ms| == |cs|
    ensures !r.Ok? ==> ms == cs
    ensures forall i :: 0 <= i < |cs| ==>
      && ms[i].id == cs[i].id && ms[i].text == cs[i].text && ms[i].phase == cs[i].phase
    ensures r.Ok? ==> forall i :: 0 <= i < |cs| ==>
      ms[i].count ==
        (if cs[i].id.Some? && IsElementFor(cs, cs[i].id.value, i)
            && FieldFor(r.payload, cs[i].id.value).Some?
         then FieldFor(r.payload, cs[i].id.value)
         else cs[i].count)
  {
    match r
    case Ok(p) =>
      var s1 := SetCount(cs, ServersCount, p.serversProtected);
      SameIds(cs, s1);
      var s2 := SetCount(s1, BackupsCount, p.backupsCreated);
      SameIds(s1, s2);
      var s3 := SetCount(s2, DataSavedCount, p.dataSavedBytes);
      s3
    case _ => cs
  }

  /** Setting `data-count` changes no element id, so every id still names
      the same element. */
  lemma SameIds(cs: seq<Counter>, ds: seq<Counter>)
    requires |ds| == |cs| && forall i :: 0 <= i < |cs| ==> ds[i].id == cs[i].id
    ensures forall id, i :: IsElementFor(cs, id, i) <==> IsElementFor(ds, id, i)
  {
  }

  /** Page load: merge the fetch outcome, then `initAnimatedCounters`, which
      runs once the fetch settles, whether it succeeded or failed. */
  function Load(cs: seq<Counter>, r: Response): (ps: seq<Counter>)
    ensures |ps| == |cs|
    // every counter is observed whether or not the fetch succeeded
    ensures forall i :: 0 <= i < |cs| ==> ps[i].phase == Observed
    // a failed fetch leaves every target as the markup gave it
    ensures !r.Ok? ==> forall i :: 0 <= i < |cs| ==> TargetOf(ps[i]) == TargetOf(cs[i])
  {
    Discover(Merge(cs, r))
  }

  /** A payload carrying only `data_saved_gb`, as the static-site producer
      writes it, changes no target at all. */
  lemma GbFieldIgnored(cs: seq<Counter>, gb: nat)
    ensures Merge(cs, Ok(Payload(None, None, None, Some(gb)))) == cs
  {
    var ms := Merge(cs, Ok(Payload(None, None, None, Some(gb))));
    assert forall i :: 0 <= i < |cs| ==> ms[i] == cs[i];
  }

  /** A payload with only `servers_protected` 42 over markup defaults of 10
      servers and 5 backups: servers become 42, backups stay 5. */
  lemma PartialPayloadExample()
    ensures var cs := [Counter(Some(ServersCount), Some(10), 10, Undiscovered),
                       Counter(Some(BackupsCount), Some(5), 5, Undiscovered)];
      var ms := Merge(cs, Ok(Payload(Some(42), None, None, None)));
      TargetOf(ms[0]) == 42 && TargetOf(ms[1]) == 5
  {
    var cs := [Counter(Some(ServersCount), Some(10), 10, Undiscovered),
               Counter(Some(BackupsCount), Some(5), 5, Undiscovered)];
    assert IsElementFor(cs, ServersCount, 0);
    assert IsElementFor(cs, BackupsCount, 1);
  }
}

=== FILE: wrappers.dfy ===
/** Optional values, used for absent DOM attributes, absent payload fields and
    missing storage keys. */
module Wrappers {

  datatype Option<+T> = None | Some(value: T) {

    /** The value in Some, or `default` when None. */
    function GetOr(default: T): T {
      match this
      case Some(v) => v
      case None => default
    }
  }
}
